=== FILE: README.md ===
# Typed dispatch registries, modelled in Dafny

This project models the dispatch core of a small C++ code base. It covers
three registries that map an event or message type to a handler:

- **The message router** (`handler/router.h`). `Router` keeps a type-to-handler
  map and a type-to-processor map for two message types, `OpAddMsg` and
  `OpMMAMsg`.
  - The add processor, `OpAddProcessor`, chooses a sub-implementation by the
    message's name and falls back to `"default"`.
  - The MMA handler validates `a`, `b` and `c`. When one is empty, it builds
    a new add message `name + "_redirected"` (inputs `a`, `b`, same output)
    and sends it down the add path.
- **The concurrent event bus** (`handler/api_base.h`, `ApiBase`). It has a
  destroyed flag, a double-checked lazy install of built-in default handlers,
  an in-flight counter around every handler run, and teardown. It is modelled
  one call at a time.
- **The thread-confined bus** (`handler/api_base_single.h`, `ApiBaseSingle`).
  It uses the same registry logic, but every call first compares the caller's
  thread with the thread that built the bus.

It also models the logger helpers they use:

- the enum helpers generated by `DEFINE_PROJ_ENUM` (`proj_logger/enum_base.h`);
- level parsing, the logger cache, level propagation and the one-time read of
  the level from the environment (`proj_logger/proj_logger.cpp`).

Files and modules:

- `wrappers.dfy` (`Wrappers`): `Option`, `Result` and `Outcome`, plus what a
  call can throw: the dispatch layer's own errors `CrossThreadAccess` and
  `ProcessorNotRegistered`, or `HandlerException`, a handler's own exception
  that nothing caught.
- `enum_base.dfy` (`EnumBase`): the `int32_t` underlying type, `is_enum_valid`,
  the X-macro expansions, enumerator numbering, `cvt` and the
  `std::to_string` rendering with its inverse.
- `proj_logger.dfy` (`ProjLogger`): `LogLevel`, `str_to_loglevel`, and the
  `LoggerManager` and `Logger` classes.
- `event_registry.dfy` (`EventRegistry`): event kinds, handler tags and
  `Resolve`. `Resolve` is the table update and handler choice that both buses
  make in `process`.
- `api_base.dfy` (`ApiBaseBus`): the `ApiBase` class.
- `api_base_single.dfy` (`ApiBaseSingleBus`): the `ApiBaseSingle` class.
- `router.dfy` (`MsgRouter`): the messages, the pure dispatch specification
  `DispatchEffects`, and the `OpAddProcessor` and `Router` classes.

Handlers, sub-implementations and processors are opaque tags. Each class keeps
a ghost `trace` of the handler runs (or processing effects) it caused. This
lets contracts say that exactly one handler ran, or that nothing ran. Each
state-changing method is proved to update its fields and its trace the way a
pure function of the old state says (`Resolve`, `RunProcessor`, `RunThunk`,
`DispatchEffects`, `InstallDefault`, `EnvLevel`). The lemmas are stated about
those functions.

Points of the code that the model keeps as written:

- The MMA redirect calls `process_msg` directly (handler/router.h:228), not
  `dispatch`. A redirect therefore runs the add processor even when no add
  handler is registered (`MsgRouter.DispatchMMARedirects` does not require one).
- `register_impl` (handler/router.h:135-139) never checks for `"default"`. It
  only inserts or overwrites, so `"default"` can never disappear once the
  constructor has put it in. The model keeps this as `OpAddProcessor.Valid()`.
- The concurrent bus has a boolean destroyed flag and an in-flight counter,
  with no separate draining state.
- `ApiBaseSingle::process` does not catch handler exceptions
  (handler/api_base_single.h:58, 66). The model returns `Fail(HandlerException)`
  from that bus. The concurrent bus catches and swallows the exception.

## Model

| member | source | states |
|---|---|---|
| EnumBase.NatToDecimal | proj_logger/enum_base.h:56 | the decimal digits of a number are never empty, contain only digits, and start with `0` only for 0, which is written `"0"` |
| EnumBase.NatToDecimalRoundTrip | proj_logger/enum_base.h:56 | reading back the digits written for `n` gives `n` |
| EnumBase.IntToDecimal | proj_logger/enum_base.h:56 | `std::to_string` writes a minus sign exactly for negative values, then digits with no leading zero unless the value is 0, so never `"-0"` or `"07"` |
| EnumBase.IntToDecimalRoundTrip | proj_logger/enum_base.h:56 | reading back what `std::to_string` writes for any integer, sign included, gives that integer |
| EnumBase.Expand | proj_logger/enum_base.h:24-28 | an X-macro pass gives one entry per item, in list order, each the per-item macro applied to that item |
| EnumBase.CountArray | proj_logger/enum_base.h:42 | `EnumName_count` holds one `1` per item |
| EnumBase.Size | proj_logger/enum_base.h:42-43 | `EnumName_size`, computed as the length of the count array, equals the number of items |
| EnumBase.StrArray | proj_logger/enum_base.h:45-48 | `EnumName_str_array` has exactly `EnumName_size` entries, and entry i is the i-th item's name |
| EnumBase.EnumeratorValues | proj_logger/enum_base.h:37-39 | the enumerator list holds one value per item |
| EnumBase.EnumeratorValueIsIndex | proj_logger/enum_base.h:24 | enumerators without initialisers are numbered 0, 1, 2, … in list order |
| EnumBase.IsEnumValid | proj_logger/enum_base.h:13-18 | `is_enum_valid(v, n)` holds exactly when `v` is the value of one of the `n` enumerators |
| EnumBase.EnumeratorValuesAreIndices | proj_logger/enum_base.h:37-39 | the values of `n` enumerators without initialisers are exactly 0 to n - 1 |
| EnumBase.Cvt | proj_logger/enum_base.h:51-57 | a valid value converts to `str_array[value]`; any other value converts to a string starting with `"UNKNOWN_"` |
| EnumBase.CvtOfEnumerator | proj_logger/enum_base.h:35-57 | the i-th enumerator converts to the i-th name of the list |
| EnumBase.CvtOfUnknown | proj_logger/enum_base.h:56 | an out-of-range value converts to `"UNKNOWN_"` followed by exactly the canonical `std::to_string` form of the value, which reads back as that value |
| ProjLogger.CvtLogLevel | proj_logger/enum_base.h:51-54 | every level prints as its own item of the level list, never in the `"UNKNOWN_"` form, and that name lower-cases to the level's keyword |
| ProjLogger.LowerChar | proj_logger/proj_logger.cpp:22-23 | `::tolower` in the "C" locale changes a character exactly when it is `'A'`–`'Z'`, maps it to the matching lower-case letter, and never yields an upper-case letter |
| ProjLogger.ToLower | proj_logger/proj_logger.cpp:22-23 | the lower-cased copy has the input's length, holds no upper-case letter, and differs from the input exactly at its upper-case letters, each of which becomes the matching lower-case letter |
| ProjLogger.StrToLogLevel | proj_logger/proj_logger.cpp:21-33 | the result is the level whose keyword equals the lower-cased input; if no keyword matches (including for `""`), the result is INFO |
| ProjLogger.ToLowerIdempotent | proj_logger/proj_logger.cpp:22-23 | lower-casing twice is the same as lower-casing once |
| ProjLogger.StrToLogLevelIgnoresCase | proj_logger/proj_logger.cpp:21-23 | strings that lower-case alike parse to the same level, and a string parses like its lower-cased form |
| ProjLogger.CvtLogLevelParses | proj_logger/proj_logger.cpp:25-31 | the printed upper-case name of every level (`cvtLogLevel`) parses back to that level, given that the level list holds the seven bare names |
| ProjLogger.EnvLevel | proj_logger/proj_logger.cpp:40-45 | an unset or empty value keeps the current level. A non-empty value selects the level whose keyword equals its lower-cased form, or INFO when none does, even if the current level was different |
| ProjLogger.EnvLevelOfName | proj_logger/proj_logger.cpp:40-44 | an environment value holding a level's printed name selects exactly that level, given that the level list holds the seven bare names |
| ProjLogger.Logger.constructor | proj_logger/proj_logger.cpp:60-61 | a new logger carries the requested name and starts at the given level |
| ProjLogger.LoggerManager.constructor | proj_logger/proj_logger.cpp:14-18 | a new manager has an empty cache, has read the environment once, and its default level is the one the environment value selects |
| ProjLogger.LoggerManager.GetLogger | proj_logger/proj_logger.cpp:53-65 | a cached name returns the same logger object and leaves the cache alone; a new name adds exactly one fresh logger at the default level |
| ProjLogger.LoggerManager.SetAllLogLevel | proj_logger/proj_logger.cpp:68-74 | the default level and the level of every cached logger become `level`; the cache keeps its entries |
| ProjLogger.LoggerManager.InitLevelFromEnv | proj_logger/proj_logger.cpp:36-49 | the body runs only once. A non-empty value sets the default through `str_to_loglevel`; an absent or empty value keeps it. The default is then applied to every logger. A second call changes nothing |
| EventRegistry.InstallDefault | handler/api_base.h:192-253 | a present entry or a type without a built-in default leaves the table as it is; otherwise exactly the type's built-in default is added and every other entry is kept |
| EventRegistry.Resolve | handler/api_base.h:155-177 | a registered handler runs without any install. A built-in type with no handler gets its default installed and run. Any other type gets nothing. Existing entries are kept, and whatever runs is the table's entry for the type |
| EventRegistry.ResolveInstallsAtMostOnce | handler/api_base.h:219-253 | processing the same type again installs nothing more and runs the same handler |
| EventRegistry.LatestRegistrationRuns | handler/api_base.h:141-144 | after two registrations for a type, only the latest is in the table and it is the one that runs |
| ApiBaseBus.ApiBase.constructor | handler/api_base.h:115 | a new bus is live, has no handlers and has nothing in flight |
| ApiBaseBus.ApiBase.RegisterHandler | handler/api_base.h:134-145 | on a destroyed bus nothing changes; otherwise the entry for the type is set or overwritten and nothing else changes |
| ApiBaseBus.ApiBase.RegisterDefaultHandler | handler/api_base.h:191-253 | an existing entry stays; a built-in type gets its default; another type gets nothing |
| ApiBaseBus.ApiBase.Process | handler/api_base.h:148-188 | on a destroyed bus nothing changes and nothing runs. Otherwise the table and the one handler run (or none) are as `Resolve` says. The handler runs with the in-flight count raised by one, and the count is back to its old value afterwards, whether or not the handler threw |
| ApiBaseBus.ApiBase.Teardown | handler/api_base.h:117-131 | the bus is marked destroyed and, with nothing in flight, its handler table is emptied |
| ApiBaseBus.TeardownIsFinal | handler/api_base.h:136-153 | after teardown, registering and processing leave the bus empty and run no handler |
| ApiBaseSingleBus.ApiBaseSingle.constructor | handler/api_base_single.h:22-24 | the bus is bound, in a constant field, to the constructing thread, is live and has no handlers |
| ApiBaseSingleBus.ApiBaseSingle.CheckThread | handler/api_base_single.h:79-88 | the check passes exactly for the bound thread; any other thread gets `CrossThreadAccess` |
| ApiBaseSingleBus.ApiBaseSingle.RegisterHandler | handler/api_base_single.h:33-44 | a foreign thread gets `CrossThreadAccess`, and nothing changes. On a destroyed bus nothing changes. Otherwise the type's entry is overwritten and no other entry changes |
| ApiBaseSingleBus.ApiBaseSingle.RegisterDefaultHandler | handler/api_base_single.h:90-127 | a built-in type gets its default through `register_handler`, with its thread and destroyed checks; any other type gets nothing |
| ApiBaseSingleBus.ApiBaseSingle.Process | handler/api_base_single.h:47-70 | a foreign thread fails before the destroyed check and changes nothing. On a destroyed bus nothing changes. Otherwise the table and the one handler run (or none) are as `Resolve` says, and a handler's exception reaches the caller |
| ApiBaseSingleBus.ApiBaseSingle.Teardown | handler/api_base_single.h:27-30 | the bus is marked destroyed and keeps its handler table |
| ApiBaseSingleBus.TeardownThenUse | handler/api_base_single.h:35-53 | after teardown, calls from the bound thread succeed and change nothing, and calls from other threads still fail |
| MsgRouter.SelectImpl | handler/router.h:129-132 | the chosen sub-implementation is a registered one: the entry for the message's name if there is one, else the `"default"` entry |
| MsgRouter.HasMMAParamError | handler/router.h:314-316 | an MMA message passes the check exactly when `a`, `b` and `c` are all non-empty |
| MsgRouter.MMAParamCheckIgnoresNameAndOutput | handler/router.h:314-316 | the check does not look at the message's name or output |
| MsgRouter.Redirected | handler/router.h:224-227 | the redirected add message is named with `"_redirected"` appended (so its name differs from the original), takes `a` and `b` as inputs, drops `c` and keeps the output |
| MsgRouter.RunProcessor | handler/router.h:326-330 | fails with `ProcessorNotRegistered` exactly when the type has no processor; otherwise there is exactly one effect, a registered sub-implementation on the same add message or the MMA processor on the same MMA message |
| MsgRouter.RunThunk | handler/router.h:218-233 | the MMA overload runs one add sub-implementation on the redirected message when a parameter is missing, failing only if no add processor is registered; otherwise the thunk processes the message itself, failing only if its type has no processor |
| MsgRouter.DispatchEffects | handler/router.h:244-260 | an unregistered type runs nothing and raises nothing. A dispatch causes at most one processing effect. The only possible failure is a missing processor |
| MsgRouter.DispatchAdd | handler/router.h:326-330 | an add message runs exactly one sub-implementation: its name's entry, or `"default"` when the name has none |
| MsgRouter.DispatchMMARedirects | handler/router.h:218-228 | an MMA message with an empty `a`, `b` or `c` runs exactly one add sub-implementation, on `OpAddMsg(name + "_redirected", a, b, output)`, and never the MMA processor |
| MsgRouter.DispatchMMAProcesses | handler/router.h:229-232 | an MMA message with `a`, `b` and `c` all non-empty runs the MMA processor once and is not redirected |
| MsgRouter.RegisterImplLastWriteWins | handler/router.h:135-139 | registering a name twice keeps the latest. Registering `"default"` replaces the fallback for every name without its own entry. Other entries are untouched |
| MsgRouter.OutcomeOf | handler/router.h:129-132 | a call fails with `ProcessorNotRegistered` when its processor is missing. Otherwise it fails with `HandlerException` exactly when the one effect is a caller-registered sub-implementation that throws, and it passes in every other case |
| MsgRouter.InstalledDispatchSucceeds | handler/router.h:235-242 | once both processors are installed, dispatch never fails with `ProcessorNotRegistered`, and a message of a registered type causes exactly one effect. The only failure left is the exception of a caller-registered sub-implementation, so with only built-in sub-implementations dispatch always passes |
| MsgRouter.OpAddProcessor.constructor | handler/router.h:124-127 | a new add processor holds exactly `"default"` and `"special"` |
| MsgRouter.OpAddProcessor.RegisterImpl | handler/router.h:135-139 | the entry for the name becomes the new sub-implementation, every other entry is unchanged, and `"default"` stays present |
| MsgRouter.OpAddProcessor.Process | handler/router.h:129-132 | the sub-implementation that runs is the one `SelectImpl` picks for the message's name |
| MsgRouter.Router.constructor | handler/router.h:235-242 | both message types get a processor and a handler: the template for add messages and the overload for MMA messages |
| MsgRouter.Router.RegisterProcessor | handler/router.h:292-302 | the processor for the type is set or overwritten; nothing else changes |
| MsgRouter.Router.RegisterHandler | handler/router.h:305-311 | the handler for the type is set or overwritten; nothing else changes |
| MsgRouter.Router.GetProcessor | handler/router.h:263-275 | fails with `ProcessorNotRegistered` exactly when the type has no processor, and otherwise returns the registered one |
| MsgRouter.Router.GetAddProcessor | handler/router.h:278-280 | returns the add processor registered in the router, which callers can extend |
| MsgRouter.Router.ProcessMsg | handler/router.h:326-330 | fetches the type's processor (failing if there is none) and records the one effect that `RunProcessor` gives. A throwing caller-registered sub-implementation's exception reaches the caller after its effect |
| MsgRouter.Router.ProcessMMAMsg | handler/router.h:218-233 | redirects an invalid MMA message through `process_msg` for add messages, and otherwise runs the MMA processor; the outcome is as `OutcomeOf` gives for `RunThunk` |
| MsgRouter.Router.Dispatch | handler/router.h:244-260 | the recorded effects are those of `DispatchEffects` on the router's state before the call. The outcome is `OutcomeOf` of them, so a caller-registered sub-implementation's exception leaves dispatch. The maps are unchanged |

## Left out

- Locks, atomics, memory orders and the condition variable of the concurrent
  bus are not modelled. Each call is modelled as one step, so the drain
  barrier reduces to "nothing is in flight between calls" (`ApiBase.Valid`).
  The "N threads × M calls give N×M runs" property is not modelled.
- The teardown race of the concurrent bus is not modelled. A `process` call
  that has passed the destroyed check but has not yet raised the counter can
  overlap teardown. This needs real concurrency.
- `OpAddProcessor::process_impl` reads the table without the processor's lock,
  while `register_impl` takes the lock. `Router::dispatch` holds its lock
  while the handler runs. Both are locking details.
- Type erasure is replaced by closed datatypes of message and event kinds.
  This covers `std::type_index`, `std::any`/`any_cast`, `void*` casts, the
  static checks and `MsgToProcessor`. `OtherMsg`/`OtherEvent` stand for any
  further type. A `bad_any_cast` from a processor of the wrong type cannot
  occur in the model.
- MsgRouter.Router.RegisterProcessor requires `ProcessorFits`, and
  MsgRouter.Router.RegisterHandler requires `ThunkFits`. These stand for the
  C++ compile-time binding of a message type to its processor type and
  handler member function.
- MsgRouter.SelectImpl and MsgRouter.OpAddProcessor.Process require
  `"default"` to be present. Without it, `impls_["default"]` would insert an
  empty `std::function` that throws on call. The constructor installs
  `"default"` and `register_impl` cannot remove it, so that path is
  unreachable.
- Handler bodies are recorded as effect tags. This covers `TensorHandler`,
  `OpHandler`, `impl_default`, `impl_special` and `OpMMAProcessor::process_impl`,
  whose only action is logging. Registering an empty `std::function` is not
  modelled.
- What a caller-registered handler or sub-implementation does is not modelled
  beyond whether it throws, which is a parameter (`handlerThrows`, `implThrows`).
- Logging output is not modelled: the `PROJ_*` macros, spdlog loggers and
  sinks, `set_pattern`, and the console line in `init_level_from_env`.
- `to_spdlog_level` is not part of this model. The manager stores `LogLevel`
  values directly.
- `set_global_log_level` (proj_logger/proj_logger.cpp:77-79) only forwards to
  `set_all_log_level` on the singleton and is not modelled separately. The
  singleton accessor `get_instance` is declared in a header that is not part
  of this model.
- The environment variable is a parameter (`Option<string>`; `None` is an
  unset variable).
- The initial value of `default_level_` is declared in a header that is not
  part of this model. It is a constructor parameter.
- The function-local `static has_checked` is process-wide. The model keeps it
  as a field of the manager, which is the same thing for the one singleton
  instance.
- The item list behind `cvtLogLevel` is not part of this model. The level
  enum at proj_logger/proj_logger.h:8-16 is a plain `enum class`, not a
  `DEFINE_PROJ_ENUM` expansion. The model takes the list to be its seven bare
  names, in that order.
- ProjLogger.CvtLogLevelParses and ProjLogger.EnvLevelOfName hold only for
  such a list of bare names. An item written as `TRACE=0` would print as
  `"TRACE=0"`, which parses as INFO.
- Items written with an explicit initialiser (such as `TRACE=0`) are not
  modelled. The macro would stringify them together with their initialiser.
- Calls on an `ApiBase` or an `ApiBaseSingle` after its destructor has
  returned are undefined behaviour in C++. The `destroyed_` checks of
  `ApiBase` only guard calls that overlap the destructor's drain wait. The
  model treats `Teardown` as a step on an object that is still live. This
  applies to ApiBaseBus.ApiBase.Teardown, ApiBaseBus.TeardownIsFinal,
  ApiBaseSingleBus.ApiBaseSingle.Teardown and
  ApiBaseSingleBus.TeardownThenUse.
- ProjLogger.LowerChar works on Unicode characters, while the source applies
  `::tolower` to the `char` bytes of a `std::string`, where a negative `char`
  is undefined behaviour. Every level keyword is ASCII, so this cannot change
  which level a string parses to.
- `engine_base/no_copy_move.h` and the demo and test programs are not
  modelled. Their deleted copy and move operations have no runtime behaviour.

=== FILE: api_base.dfy ===
/**
 * The concurrent event bus, modelled one call at a time: a destroyed flag
 * that turns registration and processing into no-ops, the double-checked lazy
 * install of a built-in default handler, the in-flight counter kept around
 * every handler run, and teardown.
 */
module ApiBaseBus {
  import opened Wrappers
  import opened EventRegistry

  /** One handler run: which handler, on which event, the in-flight count while it ran, and whether it threw. */
  datatype Run = Run(handler: Handler, event: Event, inFlight: int, threw: bool)

  class ApiBase {
    var handlers: HandlerTable
    var destroyed: bool
    var activeHandlers: int
    /** Every handler run so far, in order. */
    ghost var trace: seq<Run>

    /**
     * Between calls no handler is in flight, and a destroyed bus has released
     * its handlers (teardown clears them once the in-flight count is zero).
     */
    ghost predicate Valid()
      reads this
    {
      activeHandlers == 0 && (destroyed ==> handlers == map[])
    }

    constructor ()
      ensures Valid() && !destroyed && handlers == map[] && trace == []
    {
      handlers := map[];
      destroyed := false;
      activeHandlers := 0;
      trace := [];
    }

    /** register_handler: ignored on a destroyed bus, otherwise sets (or overwrites) the entry for `k`. */
    method RegisterHandler(k: EventKind, h: Handler)
      requires Valid()
      modifies this
      ensures Valid() && destroyed == old(destroyed) && trace == old(trace)
      ensures handlers == if old(destroyed) then old(handlers) else old(handlers)[k := h]
    {
      if destroyed {
        return;
      }
      handlers := handlers[k := h];
    }

    /** register_default_handler<T> with its three specialisations; re-checks the table first. */
    method RegisterDefaultHandler(k: EventKind)
      modifies this`handlers
      ensures handlers == InstallDefault(old(handlers), k)
    {
      if k in handlers {
        return;
      }
      if HasBuiltinDefault(k) {
        handlers := handlers[k := DefaultHandler(k)];
      }
    }

    /**
     * process: a no-op on a destroyed bus; otherwise resolves the handler
     * (lazily installing a built-in default) and runs it with the in-flight
     * count raised, lowering the count again whether or not it threw. A
     * handler exception is caught here, so the call always returns normally.
     */
    method Process(e: Event, handlerThrows: bool)
      requires Valid()
      modifies this
      ensures Valid() && destroyed == old(destroyed) && activeHandlers == old(activeHandlers)
      ensures old(destroyed) ==> handlers == old(handlers) && trace == old(trace)
      ensures !old(destroyed) ==>
                var r := Resolve(old(handlers), KindOf(e));
                && handlers == r.table
                && trace == old(trace) + (if r.ran.Some? then [Run(r.ran.value, e, old(activeHandlers) + 1, handlerThrows)] else [])
    {
      if destroyed {
        return;
      }
      var k := KindOf(e);
      var handler: Option<Handler> := None;
      if k in handlers {
        handler := Some(handlers[k]);
      }
      if handler.None? {
        RegisterDefaultHandler(k);
        if k in handlers {
          handler := Some(handlers[k]);
        } else {
          return;
        }
      }
      activeHandlers := activeHandlers + 1;
      trace := trace + [Run(handler.value, e, activeHandlers, handlerThrows)];
      // the handler's exception, if any, is caught and only logged
      activeHandlers := activeHandlers - 1;
    }

    /**
     * The destructor: mark the bus destroyed, wait until no handler is in
     * flight (between sequential calls the count is already zero), then
     * release every handler.
     */
    method Teardown()
      requires Valid()
      modifies this
      ensures Valid() && destroyed && handlers == map[] && trace == old(trace)
    {
      destroyed := true;
      assert activeHandlers == 0;
      handlers := map[];
    }
  }

  /** After teardown, registering and processing change nothing and run no handler. */
  method TeardownIsFinal(bus: ApiBase, k: EventKind, h: Handler, e: Event, throws: bool)
    requires bus.Valid()
    modifies bus
    ensures bus.Valid() && bus.destroyed && bus.handlers == map[] && bus.trace == old(bus.trace)
  {
    bus.Teardown();
    bus.RegisterHandler(k, h);
    bus.Process(e, throws);
  }
}

=== FILE: api_base_single.dfy ===
/**
 * The thread-confined event bus: the same registry logic as the concurrent
 * bus without locks or counters, but every registration and every processing
 * call first checks that it comes from the thread that built the bus.
 */
module ApiBaseSingleBus {
  import opened Wrappers
  import opened EventRegistry

  /** A thread identity, as std::this_thread::get_id() would report it; passed in by the caller. */
  type ThreadId = nat

  /** One handler run: which handler ran on which event. */
  datatype Run = Run(handler: Handler, event: Event)

  class ApiBaseSingle {
    const boundThreadId: ThreadId
    var destroyed: bool
    var handlers: HandlerTable
    /** Every handler run so far, in order. */
    ghost var trace: seq<Run>

    /** The bus is bound to the thread that constructs it, for its whole life. */
    constructor (caller: ThreadId)
      ensures boundThreadId == caller && BoundThreadId() == caller && !destroyed && handlers == map[] && trace == []
    {
      boundThreadId := caller;
      destroyed := false;
      handlers := map[];
      trace := [];
    }

    /** bound_thread_id: the thread recorded at construction (a constant field, so it never changes). */
    function BoundThreadId(): ThreadId
    {
      boundThreadId
    }

    /** check_thread: a call from any other thread is a CrossThreadAccess error. */
    method CheckThread(caller: ThreadId) returns (r: Outcome)
      ensures r.Pass? <==> caller == boundThreadId
      ensures r.Fail? ==> r.error == CrossThreadAccess
    {
      if caller != boundThreadId {
        return Fail(CrossThreadAccess);
      }
      return Pass;
    }

    /**
     * register_handler: fails from a foreign thread, is ignored on a destroyed
     * bus, and otherwise sets (or overwrites) the entry for `k`.
     */
    method RegisterHandler(caller: ThreadId, k: EventKind, h: Handler) returns (r: Outcome)
      modifies this
      ensures r.Pass? <==> caller == boundThreadId
      ensures r.Fail? ==> r.error == CrossThreadAccess
      ensures destroyed == old(destroyed) && trace == old(trace)
      ensures handlers == if r.Pass? && !old(destroyed) then old(handlers)[k := h] else old(handlers)
    {
      r := CheckThread(caller);
      if r.Fail? {
        return;
      }
      if destroyed {
        return;
      }
      handlers := handlers[k := h];
    }

    /**
     * register_default_handler<T>: the three specialisations install the
     * built-in default through register_handler (which checks the thread and
     * the destroyed flag again, and overwrites without looking); the generic
     * version for any other type only warns.
     */
    method RegisterDefaultHandler(caller: ThreadId, k: EventKind) returns (r: Outcome)
      modifies this
      ensures r.Pass? <==> caller == boundThreadId || !HasBuiltinDefault(k)
      ensures r.Fail? ==> r.error == CrossThreadAccess
      ensures destroyed == old(destroyed) && trace == old(trace)
      ensures handlers == if r.Pass? && !old(destroyed) && HasBuiltinDefault(k)
                          then old(handlers)[k := DefaultHandler(k)] else old(handlers)
    {
      if HasBuiltinDefault(k) {
        r := RegisterHandler(caller, k, DefaultHandler(k));
      } else {
        r := Pass;
      }
    }

    /**
     * process: fails from a foreign thread, is a no-op on a destroyed bus,
     * and otherwise runs the registered handler, or lazily installs and runs
     * the built-in default. Nothing catches a handler's exception: it reaches
     * the caller, after any default install has taken effect.
     */
    method Process(caller: ThreadId, e: Event, handlerThrows: bool) returns (r: Outcome)
      modifies this
      ensures destroyed == old(destroyed)
      ensures caller != boundThreadId ==>
                r == Fail(CrossThreadAccess) && handlers == old(handlers) && trace == old(trace)
      ensures caller == boundThreadId && old(destroyed) ==>
                r == Pass && handlers == old(handlers) && trace == old(trace)
      ensures caller == boundThreadId && !old(destroyed) ==>
                var res := Resolve(old(handlers), KindOf(e));
                && handlers == res.table
                && trace == old(trace) + (if res.ran.Some? then [Run(res.ran.value, e)] else [])
                && r == (if res.ran.Some? && handlerThrows then Fail(HandlerException) else Pass)
    {
      r := CheckThread(caller);
      if r.Fail? {
        return;
      }
      if destroyed {
        return;
      }
      var k := KindOf(e);
      if k in handlers {
        trace := trace + [Run(handlers[k], e)];
        r := if handlerThrows then Fail(HandlerException) else Pass;
        return;
      }
      r := RegisterDefaultHandler(caller, k);
      if k in handlers {
        trace := trace + [Run(handlers[k], e)];
        r := if handlerThrows then Fail(HandlerException) else Pass;
      }
    }

    /** The destructor: marks the bus destroyed and keeps its handler table. */
    method Teardown()
      modifies this
      ensures destroyed && handlers == old(handlers) && trace == old(trace)
    {
      destroyed := true;
    }
  }

  /**
   * After teardown, calls from the bound thread succeed and change nothing,
   * while calls from any other thread still fail.
   */
  method TeardownThenUse(bus: ApiBaseSingle, caller: ThreadId, k: EventKind, h: Handler, e: Event, throws: bool)
    returns (reg: Outcome, proc: Outcome)
    modifies bus
    ensures bus.destroyed && bus.handlers == old(bus.handlers) && bus.trace == old(bus.trace)
    ensures reg.Pass? <==> caller == bus.boundThreadId
    ensures proc.Pass? <==> caller == bus.boundThreadId
  {
    bus.Teardown();
    reg := bus.RegisterHandler(caller, k, h);
    proc := bus.Process(caller, e, throws);
  }
}

=== FILE: enum_base.dfy ===
/**
 * The enum helpers that DEFINE_PROJ_ENUM generates from an X-macro item list:
 * the enumerators, the item count, the name array and the `cvt` conversion
 * from a value to its name, with the bounds check `is_enum_valid`.
 */
module EnumBase {
  import opened Wrappers

  /** The underlying type the macro fixes for every generated enum (`int32_t`). */
  newtype int32 = x: int | -0x8000_0000 <= x < 0x8000_0000

  /**
   * is_enum_valid: the underlying value of `value` indexes one of `count`
   * items, which holds exactly when it is the value of one of the `count`
   * enumerators.
   */
  predicate IsEnumValid(value: int32, count: nat)
    ensures IsEnumValid(value, count) <==> value as int in EnumeratorValues(count)
  {
    EnumeratorValuesAreIndices(count, value as int);
    value >= 0 && (value as int) < count
  }

  // ---------------------------------------------------------------------------
  // Decimal rendering, as std::to_string writes an int32_t
  // ---------------------------------------------------------------------------

  predicate IsDigit(c: char)
  {
    '0' <= c <= '9'
  }

  predicate AllDigits(s: string)
  {
    forall i :: 0 <= i < |s| ==> IsDigit(s[i])
  }

  function DigitChar(d: nat): (c: char)
    requires d < 10
    ensures IsDigit(c)
  {
    ('0' as int + d) as char
  }

  function DigitValue(c: char): nat
    requires IsDigit(c)
  {
    c as int - '0' as int
  }

  /** The decimal digits of `n`: never empty, and without a leading zero unless `n` is 0. */
  function NatToDecimal(n: nat): (r: string)
    ensures |r| >= 1 && AllDigits(r)
    ensures r[0] == '0' <==> n == 0
    ensures n == 0 ==> r == "0"
    decreases n
  {
    if n < 10 then [DigitChar(n)] else NatToDecimal(n / 10) + [DigitChar(n % 10)]
  }

  /**
   * std::to_string: a minus sign exactly for negative values, then the digits
   * of the magnitude, with no leading zero unless the value is 0 (so never "-0").
   */
  function IntToDecimal(x: int): (r: string)
    ensures |r| >= 1
    ensures r[0] == '-' <==> x < 0
    ensures x < 0 ==> |r| >= 2 && AllDigits(r[1..]) && r[1] != '0'
    ensures x >= 0 ==> AllDigits(r) && (r[0] == '0' <==> x == 0) && (x == 0 ==> r == "0")
  {
    if x < 0 then "-" + NatToDecimal(-x) else NatToDecimal(x)
  }

  /** Reads a digit string most significant digit first. */
  function DecimalToNat(s: string): nat
    requires AllDigits(s)
    decreases |s|
  {
    if s == [] then 0 else DecimalToNat(s[..|s| - 1]) * 10 + DigitValue(s[|s| - 1])
  }

  /** Reads an optionally signed decimal integer; None when `s` is not one. */
  function ParseDecimal(s: string): Option<int>
  {
    if |s| >= 2 && s[0] == '-' && AllDigits(s[1..]) then Some(-(DecimalToNat(s[1..]) as int))
    else if |s| >= 1 && AllDigits(s) then Some(DecimalToNat(s))
    else None
  }

  lemma {:induction false} NatToDecimalRoundTrip(n: nat)
    ensures DecimalToNat(NatToDecimal(n)) == n
    decreases n
  {
    if n >= 10 {
      var prefix := NatToDecimal(n / 10);
      var s := NatToDecimal(n);
      assert s == prefix + [DigitChar(n % 10)];
      assert s[..|s| - 1] == prefix;
      NatToDecimalRoundTrip(n / 10);
    }
  }

  /** Reading back what std::to_string wrote gives the original value. */
  lemma IntToDecimalRoundTrip(x: int)
    ensures ParseDecimal(IntToDecimal(x)) == Some(x)
  {
    var s := IntToDecimal(x);
    if x < 0 {
      assert s[1..] == NatToDecimal(-x);
      NatToDecimalRoundTrip(-x);
    } else {
      assert s[0] != '-';
      NatToDecimalRoundTrip(x);
    }
  }

  // ---------------------------------------------------------------------------
  // The X-macro expansion done by DEFINE_PROJ_ENUM
  // ---------------------------------------------------------------------------

  /** The item list handed to the macro, in list order. */
  datatype ProjEnum = ProjEnum(items: seq<string>)

  /** One X-macro pass: apply the per-item macro `f` to every item, in list order. */
  function Expand<T>(items: seq<string>, f: string -> T): (r: seq<T>)
    ensures |r| == |items|
    ensures forall i :: 0 <= i < |items| ==> r[i] == f(items[i])
    decreases |items|
  {
    if items == [] then [] else Expand(items[..|items| - 1], f) + [f(items[|items| - 1])]
  }

  /** `EnumName_count`: one `1` per item (ENUM_ITEM_COUNT). */
  function CountArray(e: ProjEnum): (r: seq<int>)
    ensures |r| == |e.items|
    ensures forall i :: 0 <= i < |r| ==> r[i] == 1
  {
    Expand(e.items, _ => 1)
  }

  /** `EnumName_size`: the length of the count array, which is the number of items. */
  function Size(e: ProjEnum): (n: nat)
    ensures n == |e.items|
  {
    |CountArray(e)|
  }

  /** `EnumName_str_array`: the stringified item names (ENUM_ITEM_STRING), one entry per item. */
  function StrArray(e: ProjEnum): (r: seq<string>)
    ensures |r| == Size(e)
    ensures forall i :: 0 <= i < |r| ==> r[i] == e.items[i]
  {
    Expand(e.items, name => name)
  }

  /**
   * The values C++ gives enumerators written without an initialiser
   * (ENUM_ITEM_VALUE): the first is 0 and each later one is its predecessor plus one.
   */
  function EnumeratorValues(n: nat): (r: seq<int>)
    ensures |r| == n
  {
    if n == 0 then []
    else
      var prev := EnumeratorValues(n - 1);
      prev + [if n == 1 then 0 else prev[n - 2] + 1]
  }

  lemma {:induction false} EnumeratorValueIsIndex(n: nat, i: nat)
    requires i < n
    ensures EnumeratorValues(n)[i] == i
  {
    if i < n - 1 {
      EnumeratorValueIsIndex(n - 1, i);
    } else if n > 1 {
      EnumeratorValueIsIndex(n - 1, n - 2);
    }
  }

  /** The values of `n` enumerators are exactly 0 to n - 1. */
  lemma EnumeratorValuesAreIndices(n: nat, v: int)
    ensures 0 <= v < n <==> v in EnumeratorValues(n)
  {
    if 0 <= v < n {
      EnumeratorValueIsIndex(n, v);
    }
    if v in EnumeratorValues(n) {
      var i :| 0 <= i < n && EnumeratorValues(n)[i] == v;
      EnumeratorValueIsIndex(n, i);
    }
  }

  /**
   * `cvt##EnumName`: the item name for a valid value, and otherwise
   * "UNKNOWN_" followed by the decimal form of the value.
   */
  function Cvt(e: ProjEnum, value: int32): (r: string)
    ensures IsEnumValid(value, |e.items|) ==> r == e.items[value as int]
    ensures !IsEnumValid(value, |e.items|) ==> |r| > 8 && r[..8] == "UNKNOWN_"
  {
    if IsEnumValid(value, Size(e)) then StrArray(e)[value as int]
    else "UNKNOWN_" + IntToDecimal(value as int)
  }

  /** The i-th enumerator converts to the i-th name of the list. */
  lemma CvtOfEnumerator(e: ProjEnum, i: nat)
    requires i < |e.items| <= 0x8000_0000
    ensures EnumeratorValues(|e.items|)[i] == i
    ensures Cvt(e, EnumeratorValues(|e.items|)[i] as int32) == e.items[i]
  {
    EnumeratorValueIsIndex(|e.items|, i);
  }

  /**
   * An out-of-range value converts to "UNKNOWN_" followed by the canonical
   * decimal form of the value, from which the value can be read back.
   */
  lemma CvtOfUnknown(e: ProjEnum, value: int32)
    requires !IsEnumValid(value, |e.items|)
    ensures Cvt(e, value)[..8] == "UNKNOWN_"
    ensures Cvt(e, value)[8..] == IntToDecimal(value as int)
    ensures ParseDecimal(Cvt(e, value)[8..]) == Some(value as int)
  {
    var r := Cvt(e, value);
    assert r[8..] == IntToDecimal(value as int);
    IntToDecimalRoundTrip(value as int);
  }
}

=== FILE: event_registry.dfy ===
/**
 * The handler registry shared by both event buses: the event kinds, the
 * handlers as opaque tags, and what `process` does to the table when the bus
 * is live: use the registered handler, or lazily install the built-in
 * default for the three built-in event types.
 */
module EventRegistry {
  import opened Wrappers

  /** The events a bus carries; `OtherEvent` stands for any caller-defined event type. */
  datatype Event =
    | TensorEvent(name: string, shape: seq<int>, dtype: string)
    | OpAddEvent(name: string, input1: string, input2: string, output: string)
    | OpMMAEvent(name: string, a: string, b: string, c: string, output: string)
    | OtherEvent(typeId: nat)

  /** The type identity an event is dispatched on. */
  datatype EventKind = TensorKind | OpAddKind | OpMMAKind | OtherKind(typeId: nat)

  function KindOf(e: Event): EventKind
  {
    match e
    case TensorEvent(_, _, _) => TensorKind
    case OpAddEvent(_, _, _, _) => OpAddKind
    case OpMMAEvent(_, _, _, _, _) => OpMMAKind
    case OtherEvent(id) => OtherKind(id)
  }

  /**
   * A handler, identified only by what it is: one of the built-in defaults
   * (TensorHandler::handle and the two OpHandler::handle overloads) or a
   * handler some caller registered.
   */
  datatype Handler = TensorDefault | OpAddDefault | OpMMADefault | UserHandler(id: nat)

  type HandlerTable = map<EventKind, Handler>

  /** Only the three built-in event types have a specialised default registration. */
  predicate HasBuiltinDefault(k: EventKind)
  {
    !k.OtherKind?
  }

  function DefaultHandler(k: EventKind): Handler
    requires HasBuiltinDefault(k)
  {
    match k
    case TensorKind => TensorDefault
    case OpAddKind => OpAddDefault
    case OpMMAKind => OpMMADefault
  }

  /**
   * register_default_handler<T>: leaves a present entry alone, installs the
   * built-in default for a built-in type, and installs nothing otherwise.
   */
  function InstallDefault(t: HandlerTable, k: EventKind): (r: HandlerTable)
    ensures k in t || !HasBuiltinDefault(k) ==> r == t
    ensures HasBuiltinDefault(k) ==> k in r
    ensures k !in t && HasBuiltinDefault(k) ==> r[k] == DefaultHandler(k) && r.Keys == t.Keys + {k}
    ensures forall k' :: k' in t ==> k' in r && r[k'] == t[k']
  {
    if k in t || !HasBuiltinDefault(k) then t else t[k := DefaultHandler(k)]
  }

  /** The table after a `process` call and the handler it ran, if any. */
  datatype Resolution = Resolution(table: HandlerTable, ran: Option<Handler>)

  /**
   * What `process` does on a live bus: run the handler registered for the
   * type; when there is none, install the built-in default and run it, or,
   * for a type without one, run nothing.
   */
  function Resolve(t: HandlerTable, k: EventKind): (r: Resolution)
    ensures r.ran.Some? ==> k in r.table && r.table[k] == r.ran.value
    ensures k in t ==> r.table == t && r.ran == Some(t[k])
    ensures k !in t && HasBuiltinDefault(k) ==> r.ran == Some(DefaultHandler(k))
    ensures r.ran.None? <==> k !in t && !HasBuiltinDefault(k)
    ensures r.table.Keys == if r.ran.Some? then t.Keys + {k} else t.Keys
    ensures forall k' :: k' in t ==> r.table[k'] == t[k']
  {
    var table := InstallDefault(t, k);
    Resolution(table, if k in table then Some(table[k]) else None)
  }

  /** Processing the same type again installs nothing more and runs the same handler. */
  lemma ResolveInstallsAtMostOnce(t: HandlerTable, k: EventKind)
    ensures Resolve(Resolve(t, k).table, k) == Resolve(t, k)
  {
  }

  /** Registration is last-write-wins: the latest handler registered for a type is the one that runs. */
  lemma LatestRegistrationRuns(t: HandlerTable, k: EventKind, first: Handler, second: Handler)
    ensures Resolve(t[k := first][k := second], k) == Resolution(t[k := second], Some(second))
  {
  }
}

=== FILE: proj_logger.dfy ===
/**
 * The logger manager: the level enum and its names, parsing a level from a
 * string without regard to letter case, the name-to-logger cache, propagation
 * of a level to every cached logger, and the one-time read of the level from
 * the environment.
 */
module ProjLogger {
  import opened Wrappers
  import opened EnumBase

  /** The log levels, in declaration order (TRACE is 0). */
  datatype LogLevel = TRACE | DEBUG | INFO | WARN | ERROR | CRITICAL | OFF

  /** The underlying value of each level. */
  function LevelValue(l: LogLevel): int32
  {
    match l
    case TRACE => 0
    case DEBUG => 1
    case INFO => 2
    case WARN => 3
    case ERROR => 4
    case CRITICAL => 5
    case OFF => 6
  }

  /**
   * The item list from which the enum helpers generate `cvtLogLevel`, taken
   * to be the seven bare level names in the order of the LogLevel enum. An
   * item written with its initialiser (`TRACE=0`) would be printed with it.
   */
  const LogLevelEnum: ProjEnum := ProjEnum(["TRACE", "DEBUG", "INFO", "WARN", "ERROR", "CRITICAL", "OFF"])

  /**
   * cvtLogLevel: the printed name of a level, which is always the level's own
   * item (never the "UNKNOWN_" form) and lower-cases to its keyword.
   */
  function CvtLogLevel(l: LogLevel): (r: string)
    ensures r == LogLevelEnum.items[LevelValue(l) as int]
    ensures ToLower(r) == Keyword(l)
  {
    Cvt(LogLevelEnum, LevelValue(l))
  }

  // ---------------------------------------------------------------------------
  // str_to_loglevel
  // ---------------------------------------------------------------------------

  /** ::tolower in the "C" locale: only the letters 'A' to 'Z' change, and no upper-case letter remains. */
  function LowerChar(c: char): (r: char)
    ensures !('A' <= r <= 'Z')
    ensures r != c <==> 'A' <= c <= 'Z'
    ensures 'A' <= c <= 'Z' ==> 'a' <= r <= 'z' && r as int - 'a' as int == c as int - 'A' as int
  {
    if 'A' <= c <= 'Z' then (c as int - 'A' as int + 'a' as int) as char else c
  }

  /**
   * The lower-cased copy that std::transform makes of the input: as long as
   * the input, with no upper-case letter left, changed only at upper-case
   * letters, and each of those replaced by its lower-case partner.
   */
  function ToLower(s: string): (r: string)
    ensures |r| == |s|
    ensures forall i :: 0 <= i < |r| ==> !('A' <= r[i] <= 'Z')
    ensures forall i :: 0 <= i < |r| ==> (r[i] == s[i] <==> !('A' <= s[i] <= 'Z'))
    ensures forall i :: 0 <= i < |r| && 'A' <= s[i] <= 'Z' ==>
              'a' <= r[i] <= 'z' && r[i] as int - 'a' as int == s[i] as int - 'A' as int
  {
    seq(|s|, i requires 0 <= i < |s| => LowerChar(s[i]))
  }

  /** The keyword that names each level in a configuration string. */
  function Keyword(l: LogLevel): string
  {
    match l
    case TRACE => "trace"
    case DEBUG => "debug"
    case INFO => "info"
    case WARN => "warn"
    case ERROR => "error"
    case CRITICAL => "critical"
    case OFF => "off"
  }

  /**
   * str_to_loglevel: lower-case the input, compare it with each keyword in
   * turn, and fall back to INFO when none matches.
   */
  function StrToLogLevel(levelStr: string): (l: LogLevel)
    ensures forall k :: Keyword(k) == ToLower(levelStr) ==> l == k
    ensures (forall k :: Keyword(k) != ToLower(levelStr)) ==> l == INFO
  {
    var lower := ToLower(levelStr);
    assert Keyword(TRACE) == "trace" && Keyword(DEBUG) == "debug" && Keyword(INFO) == "info"
        && Keyword(WARN) == "warn" && Keyword(ERROR) == "error" && Keyword(CRITICAL) == "critical"
        && Keyword(OFF) == "off";
    if lower == "trace" then TRACE
    else if lower == "debug" then DEBUG
    else if lower == "info" then INFO
    else if lower == "warn" then WARN
    else if lower == "error" then ERROR
    else if lower == "critical" then CRITICAL
    else if lower == "off" then OFF
    else INFO
  }

  lemma {:induction false} ToLowerIdempotent(s: string)
    ensures ToLower(ToLower(s)) == ToLower(s)
  {
    var once := ToLower(s);
    forall i | 0 <= i < |s|
      ensures LowerChar(once[i]) == once[i]
    {
    }
  }

  /** Strings that differ only in letter case parse to the same level. */
  lemma StrToLogLevelIgnoresCase(s: string, t: string)
    requires ToLower(s) == ToLower(t)
    ensures StrToLogLevel(s) == StrToLogLevel(t)
    ensures StrToLogLevel(ToLower(s)) == StrToLogLevel(s)
  {
    ToLowerIdempotent(s);
  }

  /** The printed (upper-case) name of every level parses back to that level. */
  lemma CvtLogLevelParses(l: LogLevel)
    ensures StrToLogLevel(CvtLogLevel(l)) == l
  {
    var name := CvtLogLevel(l);
    assert name == LogLevelEnum.items[LevelValue(l) as int];
    assert ToLower(name) == Keyword(l);
  }

  /** The level `init_level_from_env` settles on for a given environment value. */
  function EnvLevel(current: LogLevel, env: Option<string>): (l: LogLevel)
    ensures env.None? || env.value == "" ==> l == current
    ensures env.Some? && env.value != "" ==> forall k :: Keyword(k) == ToLower(env.value) ==> l == k
    ensures env.Some? && env.value != "" && (forall k :: Keyword(k) != ToLower(env.value)) ==> l == INFO
  {
    if env.Some? && env.value != "" then StrToLogLevel(env.value) else current
  }

  /** An environment value holding a printed level name selects exactly that level. */
  lemma EnvLevelOfName(current: LogLevel, l: LogLevel)
    ensures EnvLevel(current, Some(CvtLogLevel(l))) == l
  {
    CvtLogLevelParses(l);
  }

  // ---------------------------------------------------------------------------
  // The logger cache
  // ---------------------------------------------------------------------------

  /** A named logger; its level is the one field that changes after creation. */
  class Logger {
    const name: string
    var level: LogLevel

    constructor (name: string, level: LogLevel)
      ensures this.name == name && this.level == level
    {
      this.name := name;
      this.level := level;
    }
  }

  class LoggerManager {
    var defaultLevel: LogLevel
    var loggers: map<string, Logger>
    /** The function-local `static bool has_checked` of init_level_from_env. */
    var hasChecked: bool

    /** Every cached logger is stored under its own name. */
    ghost predicate Valid()
      reads this
    {
      forall n :: n in loggers ==> loggers[n].name == n
    }

    /** The constructor reads the level from the environment once. */
    constructor (initialLevel: LogLevel, env: Option<string>)
      ensures Valid() && loggers == map[] && hasChecked
      ensures defaultLevel == EnvLevel(initialLevel, env)
    {
      defaultLevel := initialLevel;
      loggers := map[];
      hasChecked := false;
      new;
      InitLevelFromEnv(env);
    }

    /** get_logger: a cached logger is returned as is; a new name gets a logger at the default level. */
    method GetLogger(name: string) returns (logger: Logger)
      requires Valid()
      modifies this
      ensures Valid() && logger.name == name
      ensures defaultLevel == old(defaultLevel) && hasChecked == old(hasChecked)
      ensures name in old(loggers) ==> logger == old(loggers)[name] && loggers == old(loggers)
      ensures name !in old(loggers) ==>
                fresh(logger) && logger.level == defaultLevel && loggers == old(loggers)[name := logger]
    {
      if name in loggers {
        return loggers[name];
      }
      logger := new Logger(name, defaultLevel);
      loggers := loggers[name := logger];
    }

    /** set_all_log_level: the new default, also applied to every cached logger. */
    method SetAllLogLevel(level: LogLevel)
      requires Valid()
      modifies this, loggers.Values
      ensures Valid() && loggers == old(loggers) && hasChecked == old(hasChecked)
      ensures defaultLevel == level
      ensures forall n :: n in loggers ==> loggers[n].level == level
    {
      defaultLevel := level;
      var pending := loggers.Keys;
      while pending != {}
        invariant pending <= loggers.Keys
        invariant loggers == old(loggers) && defaultLevel == level && hasChecked == old(hasChecked)
        invariant forall n :: n in loggers && n !in pending ==> loggers[n].level == level
        decreases pending
      {
        var n :| n in pending;
        loggers[n].level := level;
        pending := pending - {n};
      }
    }

    /**
     * init_level_from_env: runs once; a non-empty environment value sets the
     * default level, and the default is then applied to every cached logger.
     */
    method InitLevelFromEnv(env: Option<string>)
      requires Valid()
      modifies this, loggers.Values
      ensures Valid() && loggers == old(loggers) && hasChecked
      ensures old(hasChecked) ==> defaultLevel == old(defaultLevel) && unchanged(loggers.Values)
      ensures !old(hasChecked) ==>
                defaultLevel == EnvLevel(old(defaultLevel), env) &&
                forall n :: n in loggers ==> loggers[n].level == defaultLevel
    {
      if hasChecked {
        return;
      }
      if env.Some? && env.value != "" {
        defaultLevel := StrToLogLevel(env.value);
      }
      SetAllLogLevel(defaultLevel);
      hasChecked := true;
    }
  }
}

=== FILE: router.dfy ===
/**
 * The message router: a type-to-handler map and a type-to-processor map over
 * the two message types it is built for. The add processor picks a
 * sub-implementation by message name, falling back to "default"; the MMA
 * handler validates its parameters and, when one is missing, redirects to
 * the add path with a freshly built add message.
 */
module MsgRouter {
  import opened Wrappers

  datatype OpAddMsg = OpAddMsg(name: string, input1: string, input2: string, output: string)
  datatype OpMMAMsg = OpMMAMsg(name: string, a: string, b: string, c: string, output: string)

  /** A message handed to `dispatch`; `OtherMsg` stands for a message type the router was not built for. */
  datatype Msg = AddMsg(add: OpAddMsg) | MMAMsg(mma: OpMMAMsg) | OtherMsg(typeId: nat, name: string)

  /** The type identity a message is dispatched on. */
  datatype MsgKind = OpAddKind | OpMMAKind | OtherKind(typeId: nat)

  function KindOf(m: Msg): MsgKind
  {
    match m
    case AddMsg(_) => OpAddKind
    case MMAMsg(_) => OpMMAKind
    case OtherMsg(id, _) => OtherKind(id)
  }

  /** The sub-implementations an add processor can hold: its two built-ins or one a caller registered. */
  datatype Impl = ImplDefault | ImplSpecial | UserImpl(id: nat)

  /** What processing a message does, observably: one sub-implementation or the MMA processor runs. */
  datatype Effect = AddImplRan(impl: Impl, addMsg: OpAddMsg) | MMAProcessorRan(mmaMsg: OpMMAMsg)

  // ---------------------------------------------------------------------------
  // Pure decisions
  // ---------------------------------------------------------------------------

  /** process_impl's choice: the entry registered under the message's name, else the "default" entry. */
  function SelectImpl(impls: map<string, Impl>, name: string): (f: Impl)
    requires "default" in impls
    ensures f in impls.Values
    ensures name in impls ==> f == impls[name]
    ensures name !in impls ==> f == impls["default"]
  {
    if name in impls then impls[name] else impls["default"]
  }

  /**
   * has_mma_param_error: one of a, b and c is empty. A message passes exactly
   * when all three operands are non-empty; its name and output are not checked.
   */
  predicate HasMMAParamError(m: OpMMAMsg)
    ensures !HasMMAParamError(m) <==> |m.a| > 0 && |m.b| > 0 && |m.c| > 0
  {
    m.a == "" || m.b == "" || m.c == ""
  }

  /** Whether an MMA message is redirected does not depend on its name or its output. */
  lemma MMAParamCheckIgnoresNameAndOutput(m: OpMMAMsg, name: string, output: string)
    ensures HasMMAParamError(m) == HasMMAParamError(OpMMAMsg(name, m.a, m.b, m.c, output))
  {
  }

  /**
   * The add message an invalid MMA message is redirected as: its name is the
   * original name with "_redirected" appended (so it never equals the
   * original name), its inputs are a and b (c is dropped), and the output is kept.
   */
  function Redirected(m: OpMMAMsg): (r: OpAddMsg)
    ensures r.name != m.name
    ensures |r.name| == |m.name| + 11 && r.name[..|m.name|] == m.name && r.name[|m.name|..] == "_redirected"
    ensures r.input1 == m.a && r.input2 == m.b && r.output == m.output
  {
    OpAddMsg(m.name + "_redirected", m.a, m.b, m.output)
  }

  /** The handler thunks the router can hold: process_msg<M> or the OpMMAMsg overload of process_msg. */
  datatype Thunk = ProcessMsgTemplate | ProcessMsgMMAOverload

  /** register_handler<M> takes a member function for M: the template exists for both types, the overload only for OpMMAMsg. */
  predicate ThunkFits(k: MsgKind, t: Thunk)
  {
    match t
    case ProcessMsgTemplate => !k.OtherKind?
    case ProcessMsgMMAOverload => k == OpMMAKind
  }

  /** The router's state as far as message processing sees it. */
  datatype RouterView = RouterView(handlers: map<MsgKind, Thunk>, processors: set<MsgKind>, impls: map<string, Impl>)

  predicate ViewValid(v: RouterView)
  {
    && (forall k :: k in v.handlers ==> ThunkFits(k, v.handlers[k]))
    && (OpAddKind in v.processors ==> "default" in v.impls)
  }

  /** process_msg<M>: get_processor<M> (which throws when none is registered), then run that processor. */
  function RunProcessor(v: RouterView, msg: Msg): (r: Result<seq<Effect>>)
    requires ViewValid(v) && !msg.OtherMsg?
    ensures r.Err? <==> KindOf(msg) !in v.processors
    ensures r.Err? ==> r.error == ProcessorNotRegistered
    ensures r.Ok? ==> |r.value| == 1
    ensures r.Ok? && msg.AddMsg? ==>
              r.value[0].AddImplRan? && r.value[0].addMsg == msg.add && r.value[0].impl in v.impls.Values
    ensures r.Ok? && msg.MMAMsg? ==> r.value[0] == MMAProcessorRan(msg.mma)
  {
    if KindOf(msg) !in v.processors then Err(ProcessorNotRegistered)
    else match msg
      case AddMsg(m) => Ok([AddImplRan(SelectImpl(v.impls, m.name), m)])
      case MMAMsg(m) => Ok([MMAProcessorRan(m)])
  }

  /** Running a handler thunk; the overload redirects through process_msg, not through dispatch. */
  function RunThunk(v: RouterView, t: Thunk, msg: Msg): (r: Result<seq<Effect>>)
    requires ViewValid(v) && ThunkFits(KindOf(msg), t)
    ensures r.Err? ==> r.error == ProcessorNotRegistered
    ensures r.Ok? ==> |r.value| == 1
    ensures t == ProcessMsgMMAOverload && HasMMAParamError(msg.mma) ==>
              (r.Err? <==> OpAddKind !in v.processors)
              && (r.Ok? ==> r.value[0].AddImplRan? && r.value[0].addMsg == Redirected(msg.mma))
    ensures !(t == ProcessMsgMMAOverload && HasMMAParamError(msg.mma)) ==>
              (r.Err? <==> KindOf(msg) !in v.processors)
              && (r.Ok? && msg.AddMsg? ==> r.value[0].AddImplRan? && r.value[0].addMsg == msg.add)
              && (r.Ok? && msg.MMAMsg? ==> r.value[0] == MMAProcessorRan(msg.mma))
  {
    match t
    case ProcessMsgTemplate => RunProcessor(v, msg)
    case ProcessMsgMMAOverload =>
      if HasMMAParamError(msg.mma) then RunProcessor(v, AddMsg(Redirected(msg.mma)))
      else RunProcessor(v, msg)
  }

  /** dispatch: run the thunk registered for the message's type; an unregistered type does nothing. */
  function DispatchEffects(v: RouterView, msg: Msg): (r: Result<seq<Effect>>)
    requires ViewValid(v)
    ensures KindOf(msg) !in v.handlers ==> r == Ok([])
    ensures r.Ok? ==> |r.value| <= 1
    ensures r.Err? ==> r.error == ProcessorNotRegistered && KindOf(msg) in v.handlers
  {
    var k := KindOf(msg);
    if k in v.handlers then RunThunk(v, v.handlers[k], msg) else Ok([])
  }

  /**
   * Only a caller-registered sub-implementation can throw: the built-in ones
   * and the MMA processor only log.
   */
  predicate MayThrow(e: Effect)
  {
    e.AddImplRan? && e.impl.UserImpl?
  }

  /**
   * What a processing call returns to its caller, given its effects and
   * whether a caller-registered sub-implementation that runs throws. Nothing
   * on the router's path catches that exception, so it leaves the call after
   * the effect has happened.
   */
  function OutcomeOf(res: Result<seq<Effect>>, implThrows: bool): (r: Outcome)
    requires res.Ok? ==> |res.value| <= 1
    ensures res.Err? ==> r == Fail(res.error)
    ensures res.Ok? ==> (r == Fail(HandlerException) <==> implThrows && |res.value| == 1 && MayThrow(res.value[0]))
    ensures res.Ok? ==> (r.Pass? <==> !(implThrows && |res.value| == 1 && MayThrow(res.value[0])))
  {
    if res.Err? then Fail(res.error)
    else if implThrows && |res.value| == 1 && MayThrow(res.value[0]) then Fail(HandlerException)
    else Pass
  }

  /** An add message runs exactly the sub-implementation its name selects, falling back to "default". */
  lemma DispatchAdd(v: RouterView, m: OpAddMsg)
    requires ViewValid(v) && OpAddKind in v.handlers && OpAddKind in v.processors
    ensures DispatchEffects(v, AddMsg(m)) == Ok([AddImplRan(SelectImpl(v.impls, m.name), m)])
    ensures m.name in v.impls ==> DispatchEffects(v, AddMsg(m)) == Ok([AddImplRan(v.impls[m.name], m)])
    ensures m.name !in v.impls ==> DispatchEffects(v, AddMsg(m)) == Ok([AddImplRan(v.impls["default"], m)])
  {
  }

  /**
   * An MMA message with a missing parameter, under the overload, runs one add
   * sub-implementation on `name + "_redirected"` with inputs a, b and the
   * same output, and never the MMA processor; no add handler is needed,
   * because the redirect calls process_msg directly.
   */
  lemma DispatchMMARedirects(v: RouterView, m: OpMMAMsg)
    requires ViewValid(v) && OpAddKind in v.processors
    requires OpMMAKind in v.handlers && v.handlers[OpMMAKind] == ProcessMsgMMAOverload
    requires HasMMAParamError(m)
    ensures DispatchEffects(v, MMAMsg(m)).Ok?
    ensures var effects := DispatchEffects(v, MMAMsg(m)).value;
            && |effects| == 1
            && effects[0].AddImplRan?
            && effects[0].addMsg == OpAddMsg(m.name + "_redirected", m.a, m.b, m.output)
            && effects[0].impl == SelectImpl(v.impls, m.name + "_redirected")
  {
  }

  /** An MMA message with a, b and c all present runs the MMA processor once and is not redirected. */
  lemma DispatchMMAProcesses(v: RouterView, m: OpMMAMsg)
    requires ViewValid(v) && OpMMAKind in v.processors && OpMMAKind in v.handlers
    requires m.a != "" && m.b != "" && m.c != ""
    ensures DispatchEffects(v, MMAMsg(m)) == Ok([MMAProcessorRan(m)])
  {
  }

  /**
   * Registering a sub-implementation under "default" replaces the built-in
   * default for every name that has no entry of its own; registering a name
   * twice keeps only the latest.
   */
  lemma RegisterImplLastWriteWins(impls: map<string, Impl>, name: string, first: Impl, second: Impl, other: string)
    requires "default" in impls
    ensures SelectImpl(impls[name := first][name := second], name) == second
    ensures name == "default" && other !in impls ==> SelectImpl(impls[name := second], other) == second
    ensures other != name && other in impls ==> SelectImpl(impls[name := second], other) == impls[other]
  {
  }

  // ---------------------------------------------------------------------------
  // The processors and the router
  // ---------------------------------------------------------------------------

  /** The add processor: a name-to-sub-implementation table. */
  class OpAddProcessor {
    var impls: map<string, Impl>

    ghost predicate Valid()
      reads this
    {
      "default" in impls
    }

    /** Registers the two built-in sub-implementations. */
    constructor ()
      ensures Valid() && impls == map["default" := ImplDefault, "special" := ImplSpecial]
    {
      impls := map[];
      new;
      RegisterImpl("default", ImplDefault);
      RegisterImpl("special", ImplSpecial);
    }

    /** register_impl: insert or overwrite, leaving every other entry as it was. */
    method RegisterImpl(name: string, f: Impl)
      modifies this
      ensures impls == old(impls)[name := f]
      ensures old(Valid()) ==> Valid()
    {
      impls := impls[name := f];
    }

    /** process_impl: runs (and here returns) the sub-implementation the message's name selects. */
    method Process(m: OpAddMsg) returns (ran: Impl)
      requires Valid()
      ensures ran in impls.Values
      ensures ran == SelectImpl(impls, m.name)
    {
      if m.name in impls {
        ran := impls[m.name];
      } else {
        ran := impls["default"];
      }
    }
  }

  /** What processor_map_ holds: a shared add processor, or the stateless MMA processor. */
  datatype Processor = AddProcessor(add: OpAddProcessor) | MMAProcessor

  /** get_processor<M> casts the stored processor to M's processor type. */
  predicate ProcessorFits(k: MsgKind, p: Processor)
  {
    (k == OpAddKind && p.AddProcessor?) || (k == OpMMAKind && p.MMAProcessor?)
  }

  class Router {
    var processorMap: map<MsgKind, Processor>
    var handlerMap: map<MsgKind, Thunk>
    /** Every processing effect so far, in order. */
    ghost var trace: seq<Effect>
    ghost var Repr: set<object>

    ghost predicate Valid()
      reads this, Repr
    {
      && this in Repr
      && (forall k :: k in processorMap ==> ProcessorFits(k, processorMap[k]))
      && (forall k :: k in handlerMap ==> ThunkFits(k, handlerMap[k]))
      && (OpAddKind in processorMap ==>
            processorMap[OpAddKind].add in Repr && processorMap[OpAddKind].add.Valid())
    }

    /** Both message types have a processor and a handler (the constructor installs them). */
    ghost predicate Installed()
      reads this
    {
      && OpAddKind in processorMap && OpMMAKind in processorMap
      && OpAddKind in handlerMap && OpMMAKind in handlerMap
    }

    ghost function View(): (v: RouterView)
      reads this, Repr
      requires Valid()
      ensures ViewValid(v)
    {
      RouterView(handlerMap, processorMap.Keys,
                 if OpAddKind in processorMap then processorMap[OpAddKind].add.impls else map[])
    }

    /** Installs both processors, the template handler for add messages and the overload for MMA messages. */
    constructor ()
      ensures Valid() && Installed() && trace == []
      ensures handlerMap == map[OpAddKind := ProcessMsgTemplate, OpMMAKind := ProcessMsgMMAOverload]
      ensures processorMap.Keys == {OpAddKind, OpMMAKind}
      ensures fresh(processorMap[OpAddKind].add)
      ensures processorMap[OpAddKind].add.impls == map["default" := ImplDefault, "special" := ImplSpecial]
    {
      processorMap := map[];
      handlerMap := map[];
      trace := [];
      Repr := {this};
      new;
      var add := new OpAddProcessor();
      RegisterProcessor(OpAddKind, AddProcessor(add));
      RegisterHandler(OpAddKind, ProcessMsgTemplate);
      RegisterProcessor(OpMMAKind, MMAProcessor);
      RegisterHandler(OpMMAKind, ProcessMsgMMAOverload);
    }

    /** register_processor: sets (or overwrites) the processor for `k`. */
    method RegisterProcessor(k: MsgKind, p: Processor)
      requires Valid() && ProcessorFits(k, p)
      requires p.AddProcessor? ==> p.add.Valid()
      modifies this
      ensures Valid() && processorMap == old(processorMap)[k := p]
      ensures handlerMap == old(handlerMap) && trace == old(trace)
      ensures Repr == old(Repr) + (if p.AddProcessor? then {p.add} else {})
    {
      processorMap := processorMap[k := p];
      if p.AddProcessor? {
        Repr := Repr + {p.add};
      }
    }

    /** register_handler: sets (or overwrites) the handler thunk for `k`. */
    method RegisterHandler(k: MsgKind, t: Thunk)
      requires Valid() && ThunkFits(k, t)
      modifies this
      ensures Valid() && handlerMap == old(handlerMap)[k := t]
      ensures processorMap == old(processorMap) && trace == old(trace) && Repr == old(Repr)
    {
      handlerMap := handlerMap[k := t];
    }

    /** get_processor<M>: the registered processor, or ProcessorNotRegistered. */
    method GetProcessor(k: MsgKind) returns (r: Result<Processor>)
      ensures r.Err? <==> k !in processorMap
      ensures r.Err? ==> r.error == ProcessorNotRegistered
      ensures r.Ok? ==> r.value == processorMap[k]
    {
      if k !in processorMap {
        return Err(ProcessorNotRegistered);
      }
      return Ok(processorMap[k]);
    }

    /** get_add_processor: the shared add processor, through which callers register more sub-implementations. */
    method GetAddProcessor() returns (r: Result<OpAddProcessor>)
      requires Valid()
      ensures r.Err? <==> OpAddKind !in processorMap
      ensures r.Err? ==> r.error == ProcessorNotRegistered
      ensures r.Ok? ==> processorMap[OpAddKind] == AddProcessor(r.value) && r.value in Repr && r.value.Valid()
    {
      var p := GetProcessor(OpAddKind);
      if p.Err? {
        return Err(p.error);
      }
      return Ok(p.value.add);
    }

    /** process_msg<M>: fetch M's processor and run it. */
    method ProcessMsg(msg: Msg, implThrows: bool) returns (r: Outcome)
      requires Valid() && !msg.OtherMsg?
      modifies this
      ensures Valid() && processorMap == old(processorMap) && handlerMap == old(handlerMap) && Repr == old(Repr)
      ensures var res := RunProcessor(old(View()), msg);
              && r == OutcomeOf(res, implThrows)
              && trace == old(trace) + (if res.Ok? then res.value else [])
    {
      var p := GetProcessor(KindOf(msg));
      if p.Err? {
        return Fail(p.error);
      }
      r := Pass;
      match msg
      case AddMsg(m) =>
        var ran := p.value.add.Process(m);
        trace := trace + [AddImplRan(ran, m)];
        // a caller-registered sub-implementation's exception is not caught
        if implThrows && ran.UserImpl? {
          r := Fail(HandlerException);
        }
      case MMAMsg(m) =>
        trace := trace + [MMAProcessorRan(m)];
    }

    /** The OpMMAMsg overload of process_msg: redirect an invalid message to the add path, else run the MMA processor. */
    method ProcessMMAMsg(m: OpMMAMsg, implThrows: bool) returns (r: Outcome)
      requires Valid()
      modifies this
      ensures Valid() && processorMap == old(processorMap) && handlerMap == old(handlerMap) && Repr == old(Repr)
      ensures var res := RunThunk(old(View()), ProcessMsgMMAOverload, MMAMsg(m));
              && r == OutcomeOf(res, implThrows)
              && trace == old(trace) + (if res.Ok? then res.value else [])
    {
      if HasMMAParamError(m) {
        r := ProcessMsg(AddMsg(Redirected(m)), implThrows);
      } else {
        r := ProcessMsg(MMAMsg(m), implThrows);
      }
    }

    /**
     * dispatch: run the handler registered for the message's type, or only
     * log an error. `implThrows` says whether a caller-registered
     * sub-implementation throws if it runs; its exception leaves dispatch.
     */
    method Dispatch(msg: Msg, implThrows: bool) returns (r: Outcome)
      requires Valid()
      modifies this
      ensures Valid() && processorMap == old(processorMap) && handlerMap == old(handlerMap) && Repr == old(Repr)
      ensures var res := DispatchEffects(old(View()), msg);
              && r == OutcomeOf(res, implThrows)
              && trace == old(trace) + (if res.Ok? then res.value else [])
    {
      var k := KindOf(msg);
      if k !in handlerMap {
        return Pass;
      }
      match handlerMap[k]
      case ProcessMsgTemplate =>
        r := ProcessMsg(msg, implThrows);
      case ProcessMsgMMAOverload =>
        r := ProcessMMAMsg(msg.mma, implThrows);
    }
  }

  /**
   * With both types installed, dispatch never fails with ProcessorNotRegistered:
   * the only failure left is the exception of a caller-registered
   * sub-implementation, and with only the built-in ones installed dispatch
   * always passes.
   */
  lemma InstalledDispatchSucceeds(v: RouterView, msg: Msg, implThrows: bool)
    requires ViewValid(v) && OpAddKind in v.processors && OpMMAKind in v.processors
    ensures DispatchEffects(v, msg).Ok?
    ensures !msg.OtherMsg? && KindOf(msg) in v.handlers ==> |DispatchEffects(v, msg).value| == 1
    ensures OutcomeOf(DispatchEffects(v, msg), implThrows).Fail? ==>
              OutcomeOf(DispatchEffects(v, msg), implThrows) == Fail(HandlerException)
              && DispatchEffects(v, msg).value[0].impl.UserImpl?
    ensures (forall n :: n in v.impls ==> !v.impls[n].UserImpl?) ==>
              OutcomeOf(DispatchEffects(v, msg), implThrows) == Pass
  {
  }

  /**
   * The router used end to end: an add message named "default" runs the
   * default sub-implementation; an MMA message missing `a` is redirected as
   * "m1_redirected"; a caller-registered "default" then takes over, and its
   * exception, when it throws, leaves dispatch after it has run.
   */
  method EndToEnd()
  {
    var router := new Router();
    var addMsg := OpAddMsg("default", "i1", "i2", "o1");
    var r := router.Dispatch(AddMsg(addMsg), true);
    assert r == Pass && router.trace == [AddImplRan(ImplDefault, addMsg)];

    var mma := OpMMAMsg("m1", "", "b", "c", "o");
    r := router.Dispatch(MMAMsg(mma), false);
    assert "m1_redirected" !in router.processorMap[OpAddKind].add.impls;
    assert r == Pass;
    assert router.trace[1] == AddImplRan(ImplDefault, OpAddMsg("m1_redirected", "", "b", "o"));

    var p := router.GetAddProcessor();
    p.value.RegisterImpl("default", UserImpl(7));
    assert router.Valid();
    r := router.Dispatch(AddMsg(OpAddMsg("x", "i1", "i2", "o1")), false);
    assert "x" !in router.processorMap[OpAddKind].add.impls;
    assert r == Pass && router.trace[2] == AddImplRan(UserImpl(7), OpAddMsg("x", "i1", "i2", "o1"));

    r := router.Dispatch(AddMsg(OpAddMsg("y", "i1", "i2", "o1")), true);
    assert "y" !in router.processorMap[OpAddKind].add.impls;
    assert r == Fail(HandlerException) && router.trace[3] == AddImplRan(UserImpl(7), OpAddMsg("y", "i1", "i2", "o1"));
  }
}

=== FILE: wrappers.dfy ===
/** Small failure-carrying datatypes shared by the dispatch model. */
module Wrappers {

  datatype Option<+T> = None | Some(value: T)

  /**
   * What a call can throw to its caller: the two errors the dispatch layer
   * raises itself, or a handler's own exception that nothing caught.
   */
  datatype Error =
    | CrossThreadAccess          // a thread-confined bus used from a foreign thread
    | ProcessorNotRegistered     // a router asked for a processor it never installed
    | HandlerException           // a handler threw and nothing caught it

  /** Pass, or the error that a C++ `throw` would have carried out of the call. */
  datatype Outcome = Pass | Fail(error: Error)

  datatype Result<+T> = Ok(value: T) | Err(error: Error)
}
